=== FILE: README.md ===
# Inventory management: a Dafny model of the server's product store and the dashboard's view logic

The system is a small inventory web application. An Express server keeps a
list of products in memory, each with an id, a name, a category, a price, a
quantity and a stock status derived from the quantity. It keeps a counter
for the next id, a fixed list of two users (an admin and a read-only user),
bearer-token authentication and an admin-only gate in front of every route
that changes the list. A React dashboard lists the products and filters them
by name, category and status. It colours each status and checks its forms
before it sends a request.

This project models:

- **StockStatus** (`stock_status.dfy`): `calculateStatus`. More than ten on
  hand is `in-stock`, above zero up to ten is `low-stock`, zero or less is
  `out-of-stock`.
- **Inventory** (`inventory.dfy`): the products and the counter as a value
  (`InventoryState`). It holds the seed data, the store invariant, the
  validation of each route in its exact order, and one function per product
  handler giving the new state and the reply. It also holds the lemmas about
  them: each handler keeps the invariant, frame conditions, a price update is
  idempotent, a deleted id is gone for good, and ids are never reused.
- **Server** (`server.dfy`): the store as the handlers run it. The class
  `ProductStore` has the `products` and `nextProductId` fields. Its methods
  write a quantity or a price in place, recompute the status, append, and
  splice. Each method is proved to leave exactly the state and reply that the
  matching Inventory function gives, and to keep the invariant. The route
  methods put the gates in front of the handlers.
- **Auth** (`auth.dfy`): the fixed user list and the login handler. It
  models how the `Authorization` header is split on spaces, with a proved
  split/join round trip. It also models `authenticateToken` (401 before 403),
  `authorizeAdmin`, and the two gates combined.
- **Dashboard** (`dashboard.dfy`): the dashboard's logic. This covers
  `filteredProducts`, `categories`, `getStatusColor` and the checks made by
  the add-product form, its Next step, and the quantity and price editors.
  The price editor as written never sends a request (see Findings).

JavaScript values are modelled by `Values.Json`, so that `=== undefined`,
`typeof … !== "number"` and truthiness (`!x`) are exact. These are
`Undefined`, `Null`, `Bool`, `Num`, `Str`, and `Composite` (an array or an
object). Numbers (price and quantity) are `real`, since the server never
checks that a quantity is an integer. Token signing and verification are
parameters (`sign`, `verify`). So are `toLowerCase`, unary `+`, `parseInt`
and `parseFloat`.

Where the code's behaviour differs from its own wording or from the
documented design, the model follows the code:

- The price route answers a missing price with the message "Quantity is
  required" (backend/server.js:210). The model keeps that wording
  (`Inventory.PriceRequired`).
- The messages say "must be a positive number", but zero is accepted. Only
  `< 0` is refused.
- Login with an empty username or password answers 400, not the 401 of
  invalid credentials (backend/server.js:102-106).
- A quantity is not checked to be an integer, so 2.5 is stored. Any
  quantity at or below zero is out of stock.

## Model

| member | source | states |
|---|---|---|
| `StockStatus.CalculateStatus` | backend/server.js:63-67 | in-stock exactly when quantity > 10, low-stock exactly when 0 < quantity <= 10, out-of-stock exactly when quantity <= 0; total |
| `StockStatus.CalculateStatusMonotone` | backend/server.js:63-67 | more stock never gives a worse status |
| `StockStatus.NameInjective` | backend/server.js:63-67 | the three status strings are distinct |
| `Inventory.Seed` | backend/server.js:13-56 | the five seed products with counter 6 satisfy the store invariant (non-empty name and category, status agrees with quantity, no negative price or quantity, distinct ids, all ids below the counter) |
| `Inventory.IndexOfId` | backend/server.js:239 | -1 exactly when no product has the id; otherwise the index of the first product with it |
| `Inventory.StatusRecomputed` | backend/server.js:69-72 | afterwards the status agrees with the quantity and no other field has changed |
| `Inventory.StatusRecomputedIdle` | backend/server.js:69-72 | recomputing a status that already agrees changes nothing |
| `Inventory.ValidateCreate` | backend/server.js:144-156 | the create request passes exactly when name and category are non-empty and price and quantity are non-negative numbers; a missing field gives "All fields are required" first, then a bad price, then a bad quantity |
| `Inventory.ValidateQuantity` | backend/server.js:177-185 | passes exactly a non-negative number; undefined gives "Quantity is required", any other value "Quantity must be a positive number" |
| `Inventory.ValidatePrice` | backend/server.js:209-217 | passes exactly a non-negative number; undefined gives that route's missing-value message, any other value "price must be a positive number" |
| `Inventory.Create` | backend/server.js:158-168 | fails exactly when validation fails, and then nothing changes; on success exactly one product is appended, with the old counter as its id, the request's fields and the computed status, and the counter grows by one |
| `Inventory.UpdateQuantity` | backend/server.js:172-197 | invalid quantity gives 400 whatever the id; unknown id gives 404; both leave the state unchanged; on success only the first product with the id changes, its quantity set and status recomputed, and the counter stays |
| `Inventory.UpdatePrice` | backend/server.js:200-230 | same order of 400 and 404 with no change; on success only that product changes, in price (and a recomputed status), and the counter stays |
| `Inventory.Delete` | backend/server.js:233-251 | unknown id gives 404 and no change; otherwise the first product with the id is returned and cut out, the others keep their order, the length drops by one and the counter stays |
| `Inventory.CreatePreservesInvariant` | backend/server.js:158-167 | create keeps the store invariant |
| `Inventory.UpdateQuantityPreservesInvariant` | backend/server.js:193-194 | a quantity update keeps the store invariant |
| `Inventory.UpdatePricePreservesInvariant` | backend/server.js:225-226 | a price update keeps the store invariant |
| `Inventory.DeletePreservesInvariant` | backend/server.js:239-245 | delete keeps the store invariant |
| `Inventory.UpdatePriceOnlyChangesPrice` | backend/server.js:225-226 | in a consistent store a successful price update changes that product's price and nothing else, its status included |
| `Inventory.UpdatePriceIdempotent` | backend/server.js:219-228 | applying the same price twice leaves the same state and reply as applying it once |
| `Inventory.DeleteRemovesId` | backend/server.js:239-245 | after a successful delete in a consistent store no product has that id |
| `Inventory.DeletedIdIsGone` | backend/server.js:233-251 | after a delete, deleting or updating the same id fails (404, or 400 from validation) and changes nothing |
| `Inventory.DeletedIdNeverReused` | backend/server.js:159 | a product created after a delete never takes the deleted id |
| `Inventory.CreateThenEmpty` | backend/server.js:187-194 | a product just created is found under its id, and setting its quantity to 0 makes it out-of-stock with every other field kept |
| `Server.ProductStore.constructor` | backend/server.js:13-56 | the store starts with the seed products and counter 6, and is valid |
| `Server.ProductStore.UpdateProductStatus` | backend/server.js:69-72 | only the status of product i changes, recomputed from its quantity |
| `Server.ProductStore.Create` | backend/server.js:141-169 | in place: the new fields and reply are those of `Inventory.Create`, and the invariant is kept |
| `Server.ProductStore.UpdateQuantity` | backend/server.js:172-197 | in place: the new fields and reply are those of `Inventory.UpdateQuantity`, and the invariant is kept |
| `Server.ProductStore.UpdatePrice` | backend/server.js:200-230 | in place: the new fields and reply are those of `Inventory.UpdatePrice`, and the invariant is kept |
| `Server.ProductStore.Delete` | backend/server.js:233-251 | in place (splice): the new fields and reply are those of `Inventory.Delete`, and the invariant is kept |
| `Server.GetProducts` | backend/server.js:136-138 | succeeds exactly when authentication does, with the whole list in store order; otherwise the authentication error |
| `Server.PostProduct` | backend/server.js:141 | a gate failure is returned unchanged and the store stays as it was; past the gates the route behaves as `Inventory.Create` |
| `Server.PutQuantity` | backend/server.js:172 | gate failures first with no change; past the gates, `Inventory.UpdateQuantity` |
| `Server.PutPrice` | backend/server.js:200-204 | gate failures first with no change; past the gates, `Inventory.UpdatePrice` |
| `Server.DeleteProduct` | backend/server.js:233-237 | gate failures first with no change; past the gates, `Inventory.Delete` |
| `Auth.Split` | backend/server.js:76 | `split(" ")` gives at least one piece, no piece holds the separator, and joining the pieces gives back the header |
| `Auth.SplitJoin` | backend/server.js:76 | splitting undoes joining pieces free of the separator |
| `Auth.BearerToken` | backend/server.js:75-76 | a token exists exactly when there is a header holding a space, and it holds no space itself |
| `Auth.SplitTwoWords` | backend/server.js:76 | two words joined by one separator split back into exactly those two words |
| `Auth.SplitTwoWordsThenMore` | backend/server.js:76 | two words followed by a separator and more split into those two words, then the pieces of the rest |
| `Auth.BearerHeaderCarriesToken` | backend/server.js:75-76 | the token is the second space-separated word: a header `<a> <t><rest>` with no space in `a` or `t`, and `rest` empty or starting with a space, yields exactly `t` |
| `Auth.Authenticate` | backend/server.js:74-89 | 401 "No token provided" exactly when the token is missing or empty; 403 "Invalid token" exactly when there is one and verification fails; succeeds exactly when a non-empty token is present and `verify` accepts it, with the identity `verify` returns; every failure's status code is 401 exactly without a token and 403 exactly with one |
| `Auth.AuthorizeAdmin` | backend/server.js:91-96 | passes exactly when the role is "admin" and then hands the identity on; otherwise 403 "Access denied. Admin only." |
| `Auth.AdminGate` | backend/server.js:141 | an authentication failure wins over the role check; it passes exactly when authentication passes with role "admin"; every refusal has status code 401 or 403 |
| `Auth.NonAdminIsReadOnly` | backend/server.js:136-141 | a valid token of a non-admin passes the read gate and gets 403 at every mutating route |
| `Auth.FindUser` | backend/server.js:108-110 | none exactly when no user matches both name and password; otherwise the first user who does |
| `Auth.Login` | backend/server.js:99-131 | 400 when a field is falsy; 401 when no user matches both fields; succeeds exactly when some user matches, returning that user's name and role and the token signed for them |
| `Auth.KnownAccounts` | backend/server.js:58-61 | admin/admin123 logs in as admin, user/user123 as user, admin with a wrong password gets 401 |
| `Dashboard.ContainsMeansOccurs` | frontend/src/pages/DashboardPage.jsx:82-84 | `includes` holds exactly when the part occurs at some index of the text |
| `Dashboard.FilteredProducts` | frontend/src/pages/DashboardPage.jsx:81-89 | a product is shown exactly when it is in the list and passes all three tests: search text within the lowercased name, category "" or equal, status "" or equal; a matching product appears as often as in the list, any other not at all; never longer than the list |
| `Dashboard.FilteredIsSubsequence` | frontend/src/pages/DashboardPage.jsx:81-89 | the filtered list is a subsequence of the products, in their order |
| `Dashboard.EmptyFiltersShowAll` | frontend/src/pages/DashboardPage.jsx:82-87 | with empty search, category and status the filtered list is the product list |
| `Dashboard.Categories` | frontend/src/pages/DashboardPage.jsx:79 | no duplicates, and exactly the categories that occur among the products |
| `Dashboard.CategoriesInFirstOccurrenceOrder` | frontend/src/pages/DashboardPage.jsx:79 | the categories are listed in the order of their first occurrence |
| `Dashboard.StatusColor` | frontend/src/pages/DashboardPage.jsx:173-184 | in-stock is success, low-stock warning, out-of-stock error, every other string default |
| `Dashboard.StatusColorOfQuantity` | frontend/src/pages/DashboardPage.jsx:173-184 | every status the server computes gets a non-default colour; error exactly at quantity <= 0, success exactly above 10 |
| `Dashboard.NextStepAllowed` | frontend/src/pages/DashboardPage.jsx:194-201 | the second step opens only with a non-empty name and category |
| `Dashboard.AddProductRequest` | frontend/src/pages/DashboardPage.jsx:91-111 | nothing is sent exactly when a field is empty; what is sent always gets past the server's "All fields are required" check and carries the typed name and category, `parseFloat` of the price and `parseInt` of the quantity (NaN as null) |
| `Dashboard.EditRequest` | frontend/src/pages/DashboardPage.jsx:120-142 | the quantity editor (and the price editor as intended) is refused with its message exactly when `+text` is a negative number, and otherwise sends the parsed text (NaN as null); it never swallows a submit |
| `Dashboard.EditPriceAsWritten` | frontend/src/pages/DashboardPage.jsx:144-159 | the price editor as written is refused with "Please enter a valid price" exactly when `+text` is negative, and never sends anything |
| `Dashboard.PriceEditorDropsValidPrice` | frontend/src/pages/DashboardPage.jsx:144-159 | for the text "5" the price editor as written sends nothing, while the intended editor sends 5 |
| `Dashboard.EditPriceReachesRoute` | frontend/src/pages/DashboardPage.jsx:144-159 | with the intended price editor, a price whose parse agrees with `+text` is sent exactly when non-negative, and the price route then succeeds exactly for a known id and stores that price |
| `Dashboard.EmptyQuantityReachesServer` | frontend/src/pages/DashboardPage.jsx:124-134 | an empty quantity passes the client's check, travels as null, and the server answers 400 without a change |

## Findings

| source | as written | input that shows it | evidently intended | confidence | as-written member | corrected member |
|---|---|---|---|---|---|---|
| frontend/src/pages/DashboardPage.jsx:144-159 | the price editor calls `updateProductPrice`, taken from the product context at line 53, which frontend/src/context/ProductContext.jsx:140-151 never provides; the TypeError is swallowed by the catch at lines 156-158, so no request is sent and the editor stays open | any price text that is not negative, e.g. "5" | send `parseFloat(text)` to PUT /api/products-price/:id, as the quantity editor does for its route | high, from reading the code; not executed | `Dashboard.EditPriceAsWritten`, `Dashboard.PriceEditorDropsValidPrice` | `Dashboard.EditRequest`, `Dashboard.EditPriceReachesRoute` |

## Left out

- Token signing and verification (`jwt.sign`, `jwt.verify`, the fixed secret, the 24-hour expiry) are a foreign library with a clock. They are the parameters `sign` and `verify`, so expiry is whatever `verify` decides.
- Express wiring: CORS, body parsing, dotenv, the 500 error middleware, `app.listen` and logging. Success status codes (200, 201) and the delete reply's message text are not part of `Http.Result`.
- The route parameter `:id` is taken as already parsed to an integer. A non-numeric id (`parseInt` gives NaN, which matches no product, so 404) is not modelled.
- `Inventory.CreateBody`: a name or category that is a JSON value other than a string (a number, say) is not modelled. It is either absent or a string.
- JSON numbers that do not fit a double, and non-finite values, are not modelled. Numbers are unbounded reals.
- Products are values in a sequence. The source's handlers return the same object they mutate; aliasing of that object outside the list is not modelled.
- `toLowerCase`, unary `+`, `parseInt` and `parseFloat` are parameters without their JavaScript definitions. `Dashboard.EmptyFiltersShowAll`, `Dashboard.EmptyQuantityReachesServer`, `Dashboard.PriceEditorDropsValidPrice` and `Dashboard.EditPriceReachesRoute` assume, as preconditions, the JavaScript facts they use (`"".toLowerCase()` is `""`, `+""` is 0, `parseInt("")` is NaN, `+"5"` and `parseFloat("5")` are 5, `parseFloat` and `+` agree on the text).
- frontend/src/context/ProductContext.jsx and AuthContext.jsx (fetch calls, local list updates driven by server replies, localStorage), frontend/src/pages/LoginPage.jsx, App.jsx and main.jsx are not part of this model: they are I/O and rendering.
- In the dashboard: layout, dialog and modal state, the timed clearing of messages, and `toFixed(2)` price formatting.
- Serializing products to JSON and back is transport and is not modelled.
- Concurrency: the store assumes one request at a time, as the single-threaded server does.

=== FILE: auth.dfy ===
/**
 * Credentials, bearer tokens and the two middleware gates of the server.
 * Signing and verifying a token belong to a library that is not modelled:
 * they are the parameters `sign` and `verify`.
 */
module Auth {
  import opened Values
  import opened Http

  datatype User = User(username: string, password: string, role: string)

  /** What a verified token carries, and what login hands back. */
  datatype Identity = Identity(username: string, role: string)

  /** A successful login: the signed token and the public identity. */
  datatype Session = Session(token: string, user: Identity)

  const AdminRole := "admin"

  /** The fixed user list. */
  const Users: seq<User> := [User("admin", "admin123", "admin"), User("user", "user123", "user")]

  const CredentialsRequired := "Username and password are required"
  const InvalidCredentials := "Invalid credentials"
  const NoToken := "No token provided"
  const InvalidToken := "Invalid token"
  const AdminOnly := "Access denied. Admin only."

  // ---------------------------------------------------------------- the Authorization header

  /** The index of the first `c` in `s`, or -1. */
  function IndexOf(s: string, c: char): (i: int)
    ensures -1 <= i < |s|
    ensures i == -1 <==> c !in s
    ensures 0 <= i ==> s[i] == c && c !in s[..i]
  {
    if |s| == 0 then -1
    else if s[0] == c then 0
    else
      var j := IndexOf(s[1..], c);
      if j == -1 then -1 else j + 1
  }

  /** The pieces joined back together, `sep` between each two. */
  function Join(parts: seq<string>, sep: char): string
    requires |parts| >= 1
  {
    if |parts| == 1 then parts[0] else parts[0] + [sep] + Join(parts[1..], sep)
  }

  /** Joining a first piece onto the rest puts one separator between them. */
  lemma JoinCons(first: string, rest: seq<string>, sep: char)
    requires |rest| >= 1
    ensures Join([first] + rest, sep) == first + [sep] + Join(rest, sep)
  {
  }

  /** `s.split(sep)`: the maximal pieces of `s` between separators, the empty ones included. */
  function Split(s: string, sep: char): (parts: seq<string>)
    ensures |parts| >= 1
    ensures forall k :: 0 <= k < |parts| ==> sep !in parts[k]
    ensures Join(parts, sep) == s
    decreases |s|
  {
    var i := IndexOf(s, sep);
    if i == -1 then [s]
    else
      var rest := Split(s[i + 1..], sep);
      JoinCons(s[..i], rest, sep);
      assert s == s[..i] + [sep] + s[i + 1..];
      [s[..i]] + rest
  }

  /** Splitting undoes joining pieces that hold no separator. */
  lemma {:induction false} SplitJoin(parts: seq<string>, sep: char)
    requires |parts| >= 1
    requires forall k :: 0 <= k < |parts| ==> sep !in parts[k]
    ensures Split(Join(parts, sep), sep) == parts
    decreases |parts|
  {
    if |parts| > 1 {
      var s := Join(parts, sep);
      var tail := Join(parts[1..], sep);
      assert s == parts[0] + [sep] + tail;
      assert IndexOf(s, sep) == |parts[0]| by {
        assert s[|parts[0]|] == sep;
        assert s[..|parts[0]|] == parts[0];
      }
      assert s[|parts[0]| + 1..] == tail;
      SplitJoin(parts[1..], sep);
      assert Split(s, sep) == [s[..|parts[0]|]] + Split(tail, sep);
      assert s[..|parts[0]|] == parts[0];
      assert parts == [parts[0]] + parts[1..];
    } else {
      assert IndexOf(parts[0], sep) == -1;
    }
  }

  /**
   * `authHeader && authHeader.split(" ")[1]`: the second space-separated
   * piece of the header, or None when the header is absent or holds no space.
   */
  function BearerToken(authorization: Option<string>): (t: Option<string>)
    ensures t.Some? ==> authorization.Some? && ' ' !in t.value
    ensures t.Some? <==> authorization.Some? && ' ' in authorization.value
  {
    match authorization
    case None => None
    case Some(header) =>
      var parts := Split(header, ' ');
      if |parts| == 1 then
        assert Join(parts, ' ') == parts[0];
        None
      else Some(parts[1])
  }

  /** Splitting at a first separator cuts off exactly the piece before it. */
  lemma SplitAtFirst(x: string, sep: char, y: string)
    requires sep !in x
    ensures Split(x + [sep] + y, sep) == [x] + Split(y, sep)
  {
    var s := x + [sep] + y;
    assert s[|x|] == sep;
    assert s[..|x|] == x;
    assert IndexOf(s, sep) == |x|;
    assert s[|x| + 1..] == y;
  }

  /** Two words joined by one separator split back into those two words. */
  lemma SplitTwoWords(a: string, t: string, sep: char)
    requires sep !in a && sep !in t
    ensures Split(a + [sep] + t, sep) == [a, t]
  {
    SplitAtFirst(a, sep, t);
    assert IndexOf(t, sep) == -1;
  }

  /** Two words followed by a separator and more split into those two words, then the rest's pieces. */
  lemma SplitTwoWordsThenMore(a: string, t: string, sep: char, more: string)
    requires sep !in a && sep !in t
    ensures Split(a + [sep] + (t + [sep] + more), sep) == [a, t] + Split(more, sep)
  {
    SplitAtFirst(a, sep, t + [sep] + more);
    SplitAtFirst(t, sep, more);
  }

  /**
   * The token is the second space-separated word: for a header
   * `<a> <t><rest>`, where neither `a` nor `t` holds a space and `rest` is
   * empty or starts with a space, the token is exactly `t`.
   */
  lemma BearerHeaderCarriesToken(a: string, t: string, rest: string)
    requires ' ' !in a && ' ' !in t
    requires rest == [] || rest[0] == ' '
    ensures BearerToken(Some(a + " " + t + rest)) == Some(t)
  {
    if rest == [] {
      assert a + " " + t + rest == a + [' '] + t;
      SplitTwoWords(a, t, ' ');
    } else {
      assert a + " " + t + rest == a + [' '] + (t + [' '] + rest[1..]);
      SplitTwoWordsThenMore(a, t, ' ', rest[1..]);
    }
  }

  /** `!token` is false: a token is there and is not empty. */
  predicate HasToken(t: Option<string>) {
    t.Some? && t.value != ""
  }

  // ---------------------------------------------------------------- gates

  /**
   * `authenticateToken`: 401 without a token, 403 when verification fails,
   * otherwise the identity the token carries.
   */
  function Authenticate(authorization: Option<string>, verify: string -> Option<Identity>): (r: Result<Identity>)
    ensures r == Err(Unauthorized(NoToken)) <==> !HasToken(BearerToken(authorization))
    ensures r == Err(Forbidden(InvalidToken)) <==>
      HasToken(BearerToken(authorization)) && verify(BearerToken(authorization).value).None?
    ensures r.Ok? <==> HasToken(BearerToken(authorization)) && verify(BearerToken(authorization).value).Some?
    ensures r.Ok? ==> verify(BearerToken(authorization).value) == Some(r.value)
    ensures r.Err? ==> (r.error.Code() == 401 <==> !HasToken(BearerToken(authorization)))
    ensures r.Err? ==> (r.error.Code() == 403 <==> HasToken(BearerToken(authorization)))
  {
    var token := BearerToken(authorization);
    if !HasToken(token) then Err(Unauthorized(NoToken))
    else match verify(token.value)
      case None => Err(Forbidden(InvalidToken))
      case Some(user) => Ok(user)
  }

  /** `authorizeAdmin`: only the role "admin" passes; every other role gets 403. */
  function AuthorizeAdmin(user: Identity): (r: Result<Identity>)
    ensures r.Ok? <==> user.role == AdminRole
    ensures r.Ok? ==> r.value == user
    ensures r.Err? ==> r.error == Forbidden(AdminOnly)
  {
    if user.role != AdminRole then Err(Forbidden(AdminOnly)) else Ok(user)
  }

  /**
   * The two gates in front of every mutating route: authentication first,
   * then the role check.
   */
  function AdminGate(authorization: Option<string>, verify: string -> Option<Identity>): (r: Result<Identity>)
    ensures Authenticate(authorization, verify).Err? ==> r == Authenticate(authorization, verify)
    ensures r.Ok? <==> Authenticate(authorization, verify).Ok? && Authenticate(authorization, verify).value.role == AdminRole
    ensures r.Ok? ==> r == Authenticate(authorization, verify)
    ensures Authenticate(authorization, verify).Ok? && r.Err? ==> r.error == Forbidden(AdminOnly)
    ensures r.Err? ==> r.error.Code() == 401 || r.error.Code() == 403
  {
    match Authenticate(authorization, verify)
    case Err(e) => Err(e)
    case Ok(user) => AuthorizeAdmin(user)
  }

  /**
   * A verified token whose role is not "admin" passes the read gate and is
   * refused, with 403, at every mutating route.
   */
  lemma NonAdminIsReadOnly(t: string, verify: string -> Option<Identity>, who: Identity)
    requires t != "" && ' ' !in t
    requires verify(t) == Some(who) && who.role != AdminRole
    ensures Authenticate(Some("Bearer " + t), verify) == Ok(who)
    ensures AdminGate(Some("Bearer " + t), verify) == Err(Forbidden(AdminOnly))
  {
  }

  // ---------------------------------------------------------------- login

  /** `u.username === username && u.password === password`. */
  predicate CredentialsMatch(u: User, username: Json, password: Json) {
    username == Str(u.username) && password == Str(u.password)
  }

  /** `users.find(...)`: the first user whose name and password both match. */
  function FindUser(users: seq<User>, username: Json, password: Json): (r: Option<User>)
    ensures r.None? <==> forall k :: 0 <= k < |users| ==> !CredentialsMatch(users[k], username, password)
    ensures r.Some? ==> exists k :: (0 <= k < |users| && users[k] == r.value && CredentialsMatch(users[k], username, password)
      && forall j :: 0 <= j < k ==> !CredentialsMatch(users[j], username, password))
  {
    if |users| == 0 then None
    else if CredentialsMatch(users[0], username, password) then Some(users[0])
    else
      var r := FindUser(users[1..], username, password);
      if r.Some? then
        ghost var k :| 0 <= k < |users[1..]| && users[1..][k] == r.value && CredentialsMatch(users[1..][k], username, password)
          && forall j :: 0 <= j < k ==> !CredentialsMatch(users[1..][j], username, password);
        assert users[k + 1] == r.value;
        r
      else r
  }

  /**
   * POST /api/auth/login: 400 when either field is falsy, 401 when no user
   * matches both, otherwise a token for the matched user and their identity.
   */
  function Login(username: Json, password: Json, sign: Identity -> string): (r: Result<Session>)
    ensures !Truthy(username) || !Truthy(password) ==> r == Err(BadRequest(CredentialsRequired))
    ensures Truthy(username) && Truthy(password) && (forall u :: u in Users ==> !CredentialsMatch(u, username, password))
      ==> r == Err(Unauthorized(InvalidCredentials))
    ensures r.Ok? <==> exists u :: u in Users && CredentialsMatch(u, username, password)
    ensures forall u :: u in Users && CredentialsMatch(u, username, password) ==>
      r == Ok(Session(sign(Identity(u.username, u.role)), Identity(u.username, u.role)))
  {
    if !Truthy(username) || !Truthy(password) then Err(BadRequest(CredentialsRequired))
    else match FindUser(Users, username, password)
      case None => Err(Unauthorized(InvalidCredentials))
      case Some(user) =>
        var identity := Identity(user.username, user.role);
        Ok(Session(sign(identity), identity))
  }

  /** The two known accounts log in with their own roles; a wrong password is refused. */
  lemma KnownAccounts(sign: Identity -> string)
    ensures Login(Str("admin"), Str("admin123"), sign).Ok?
    ensures Login(Str("admin"), Str("admin123"), sign).value.user.role == "admin"
    ensures Login(Str("user"), Str("user123"), sign).Ok?
    ensures Login(Str("user"), Str("user123"), sign).value.user.role == "user"
    ensures Login(Str("admin"), Str("wrong"), sign) == Err(Unauthorized(InvalidCredentials))
  {
  }
}

=== FILE: dashboard.dfy ===
/**
 * The dashboard's view logic: the product filter, the category list, the
 * status colours and the checks a form passes before a request is sent.
 * `toLowerCase`, unary `+`, `parseInt` and `parseFloat` are JavaScript
 * built-ins that are not modelled: they are the parameters `lower`,
 * `toNumber`, `parseInt` and `parseFloat`.
 */
module Dashboard {
  import opened Values
  import opened Http
  import opened StockStatus
  import opened Inventory

  // ---------------------------------------------------------------- sequences

  /** `xs` is `ys` with some elements left out, the rest in their order. */
  ghost predicate SubsequenceOf<T>(xs: seq<T>, ys: seq<T>)
    decreases |ys|
  {
    if xs == [] then true
    else if ys == [] then false
    else (xs[0] == ys[0] && SubsequenceOf(xs[1..], ys[1..])) || SubsequenceOf(xs, ys[1..])
  }

  /** `text` holds `part` starting at index `i`. */
  predicate OccursAt(text: string, part: string, i: nat) {
    i + |part| <= |text| && text[i..i + |part|] == part
  }

  /** `text.includes(part)`. */
  function Contains(text: string, part: string): bool
    decreases |text|
  {
    if |part| > |text| then false
    else if text[..|part|] == part then true
    else Contains(text[1..], part)
  }

  /** `includes` finds `part` exactly when it occurs somewhere in `text`. */
  lemma {:induction false} ContainsMeansOccurs(text: string, part: string)
    ensures Contains(text, part) <==> exists i: nat :: OccursAt(text, part, i)
    decreases |text|
  {
    if |part| > |text| {
      assert forall i: nat :: !OccursAt(text, part, i);
    } else if text[..|part|] == part {
      assert OccursAt(text, part, 0);
    } else {
      ContainsMeansOccurs(text[1..], part);
      if Contains(text[1..], part) {
        var i: nat :| OccursAt(text[1..], part, i);
        assert text[i + 1..i + 1 + |part|] == text[1..][i..i + |part|];
        assert OccursAt(text, part, i + 1);
      } else {
        forall i: nat | OccursAt(text, part, i)
          ensures false
        {
          if i > 0 {
            assert text[1..][i - 1..i - 1 + |part|] == text[i..i + |part|];
            assert OccursAt(text[1..], part, i - 1);
          }
        }
      }
    }
  }

  // ---------------------------------------------------------------- filtering

  /** The search box and the two drop-downs; "" means "all". */
  datatype Filters = Filters(search: string, category: string, status: string)

  /** The three tests of the filter callback, all of which must pass. */
  predicate MatchesFilters(p: Product, f: Filters, lower: string -> string) {
    && Contains(lower(p.name), lower(f.search))
    && (f.category == "" || p.category == f.category)
    && (f.status == "" || p.status.Name() == f.status)
  }

  /** `filteredProducts`: the products that pass all three tests, in list order. */
  function FilteredProducts(ps: seq<Product>, f: Filters, lower: string -> string): (r: seq<Product>)
    ensures |r| <= |ps|
    ensures forall p :: p in r <==> p in ps && MatchesFilters(p, f, lower)
    ensures forall p :: multiset(r)[p] == if MatchesFilters(p, f, lower) then multiset(ps)[p] else 0
  {
    if ps == [] then []
    else
      assert ps == [ps[0]] + ps[1..];
      if MatchesFilters(ps[0], f, lower) then [ps[0]] + FilteredProducts(ps[1..], f, lower)
    else FilteredProducts(ps[1..], f, lower)
  }

  /** Filtering only leaves products out; those kept stay in their order. */
  lemma {:induction false} FilteredIsSubsequence(ps: seq<Product>, f: Filters, lower: string -> string)
    ensures SubsequenceOf(FilteredProducts(ps, f, lower), ps)
  {
    var r := FilteredProducts(ps, f, lower);
    if ps != [] {
      FilteredIsSubsequence(ps[1..], f, lower);
      if MatchesFilters(ps[0], f, lower) {
        assert r[0] == ps[0] && r[1..] == FilteredProducts(ps[1..], f, lower);
      } else if r != [] {
        assert r[0] in r;
        assert r[0] != ps[0];
      }
    }
  }

  /** With an empty search and both drop-downs on "all", every product is shown, in order. */
  lemma {:induction false} EmptyFiltersShowAll(ps: seq<Product>, lower: string -> string)
    requires lower("") == ""
    ensures FilteredProducts(ps, Filters("", "", ""), lower) == ps
  {
    if ps != [] {
      var f := Filters("", "", "");
      assert Contains(lower(ps[0].name), "");
      assert MatchesFilters(ps[0], f, lower);
      assert FilteredProducts(ps, f, lower) == [ps[0]] + FilteredProducts(ps[1..], f, lower);
      EmptyFiltersShowAll(ps[1..], lower);
      assert ps == [ps[0]] + ps[1..];
    }
  }

  // ---------------------------------------------------------------- categories

  /** The index of the first product in `category`, or -1. */
  function FirstIndexOfCategory(ps: seq<Product>, category: string): (k: int)
    ensures -1 <= k < |ps|
    ensures k == -1 <==> forall j :: 0 <= j < |ps| ==> ps[j].category != category
    ensures 0 <= k ==> ps[k].category == category && forall j :: 0 <= j < k ==> ps[j].category != category
  {
    if |ps| == 0 then -1
    else if ps[0].category == category then 0
    else
      var k := FirstIndexOfCategory(ps[1..], category);
      if k == -1 then -1 else k + 1
  }

  /**
   * `[...new Set(products.map(p => p.category))]`: each category once, in
   * the order a Set keeps, that of first insertion.
   */
  function Categories(ps: seq<Product>): (r: seq<string>)
    ensures forall i, j :: 0 <= i < j < |r| ==> r[i] != r[j]
    ensures forall c :: c in r <==> exists k :: 0 <= k < |ps| && ps[k].category == c
  {
    if ps == [] then []
    else
      var prefix := ps[..|ps| - 1];
      var seen := Categories(prefix);
      var c := ps[|ps| - 1].category;
      assert forall k :: 0 <= k < |prefix| ==> prefix[k] == ps[k];
      if c in seen then seen else seen + [c]
  }

  /** Adding a product at the end moves no first occurrence, and a new category first occurs there. */
  lemma FirstIndexOfCategoryExtended(ps: seq<Product>, c: string)
    requires ps != []
    ensures var prefix := ps[..|ps| - 1];
      FirstIndexOfCategory(prefix, c) != -1 ==> FirstIndexOfCategory(ps, c) == FirstIndexOfCategory(prefix, c)
    ensures var prefix := ps[..|ps| - 1];
      FirstIndexOfCategory(prefix, c) == -1 && ps[|ps| - 1].category == c ==> FirstIndexOfCategory(ps, c) == |ps| - 1
  {
  }

  /** One pair of listed categories keeps its order when one more product is added. */
  lemma CategoryOrderStep(ps: seq<Product>, x: string, y: string)
    requires ps != []
    requires x in Categories(ps[..|ps| - 1])
    requires || (y in Categories(ps[..|ps| - 1])
                 && FirstIndexOfCategory(ps[..|ps| - 1], x) < FirstIndexOfCategory(ps[..|ps| - 1], y))
             || (y == ps[|ps| - 1].category && y !in Categories(ps[..|ps| - 1]))
    ensures FirstIndexOfCategory(ps, x) < FirstIndexOfCategory(ps, y)
  {
    var prefix := ps[..|ps| - 1];
    assert FirstIndexOfCategory(prefix, x) != -1;
    FirstIndexOfCategoryExtended(ps, x);
    FirstIndexOfCategoryExtended(ps, y);
    if y !in Categories(prefix) {
      assert FirstIndexOfCategory(prefix, y) == -1;
    } else {
      assert FirstIndexOfCategory(prefix, y) != -1;
    }
  }

  /** The categories are listed in the order of their first occurrence among the products. */
  lemma {:induction false} CategoriesInFirstOccurrenceOrder(ps: seq<Product>)
    ensures var r := Categories(ps);
      forall i, j :: 0 <= i < j < |r| ==> FirstIndexOfCategory(ps, r[i]) < FirstIndexOfCategory(ps, r[j])
  {
    if ps != [] {
      var prefix := ps[..|ps| - 1];
      var seen := Categories(prefix);
      var c := ps[|ps| - 1].category;
      var r := Categories(ps);
      CategoriesInFirstOccurrenceOrder(prefix);
      assert r == if c in seen then seen else seen + [c];
      forall i, j | 0 <= i < j < |r|
        ensures FirstIndexOfCategory(ps, r[i]) < FirstIndexOfCategory(ps, r[j])
      {
        assert r[i] == seen[i];
        if j < |seen| {
          assert r[j] == seen[j];
        }
        CategoryOrderStep(ps, r[i], r[j]);
      }
    }
  }

  // ---------------------------------------------------------------- status colours

  datatype Color = Success | Warning | Error | Default

  /** `getStatusColor`: the chip colour for a status string; anything unknown is "default". */
  function StatusColor(status: string): (c: Color)
    ensures c == Success <==> status == "in-stock"
    ensures c == Warning <==> status == "low-stock"
    ensures c == Error <==> status == "out-of-stock"
    ensures c == Default <==> status != "in-stock" && status != "low-stock" && status != "out-of-stock"
  {
    if status == "in-stock" then Success
    else if status == "low-stock" then Warning
    else if status == "out-of-stock" then Error
    else Default
  }

  /**
   * Every status the server computes gets its own colour, never the
   * default one; red means nothing on hand.
   */
  lemma StatusColorOfQuantity(q: real)
    ensures StatusColor(CalculateStatus(q).Name()) != Default
    ensures StatusColor(CalculateStatus(q).Name()) == Error <==> q <= 0.0
    ensures StatusColor(CalculateStatus(q).Name()) == Success <==> q > 10.0
  {
  }

  // ---------------------------------------------------------------- form checks

  /** The add-product form; every field is the text typed into it. */
  datatype ProductForm = ProductForm(name: string, category: string, price: string, quantity: string)

  /** `_handleNextClick`: the second step opens only once name and category are filled in. */
  function NextStepAllowed(form: ProductForm): (ok: bool)
    ensures ok ==> Present(Some(form.name)) && Present(Some(form.category))
    ensures !ok ==> form.name == "" || form.category == ""
  {
    !(form.name == "" || form.category == "")
  }

  /**
   * `_handleAddProduct`: the create request the form sends, or None when a
   * field is empty and nothing is sent. The numbers are parsed and sent as
   * JSON, where NaN becomes null.
   */
  function AddProductRequest(form: ProductForm, parseFloat: string -> JsNumber, parseInt: string -> JsNumber)
    : (body: Option<CreateBody>)
    ensures body.None? <==> form.name == "" || form.category == "" || form.price == "" || form.quantity == ""
    ensures body.Some? ==> ValidateCreate(body.value) != Some(BadRequest(AllFieldsRequired))
    ensures body.Some? ==> body.value.name == Some(form.name) && body.value.category == Some(form.category)
    ensures body.Some? ==> body.value.price == NumberToJson(parseFloat(form.price))
                           && body.value.quantity == NumberToJson(parseInt(form.quantity))
    ensures body.Some? ==> NextStepAllowed(form)
  {
    if form.name == "" || form.category == "" || form.price == "" || form.quantity == "" then None
    else Some(CreateBody(Some(form.name), Some(form.category),
                         NumberToJson(parseFloat(form.price)), NumberToJson(parseInt(form.quantity))))
  }

  const InvalidQuantity := "Please enter a valid quantity"
  const InvalidPrice := "Please enter a valid price"

  /**
   * What submitting an inline editor does: it is refused on the client with
   * a message, it sends a value to the server, or the call throws, the error
   * is swallowed and the editor stays open with nothing sent.
   */
  datatype Submit = Refused(message: string) | Sent(value: Json) | Swallowed

  /**
   * A number editor that works: refused with `invalid` when `+text` is a
   * negative number, otherwise the parsed text is sent as JSON (NaN as
   * null). `_handleEditQuantity` is this with `parseInt`; the price editor
   * was meant to be this with `parseFloat`.
   */
  function EditRequest(text: string, invalid: string, toNumber: string -> JsNumber, parse: string -> JsNumber)
    : (r: Submit)
    ensures r.Refused? <==> toNumber(text).Finite? && toNumber(text).value < 0.0
    ensures r.Refused? ==> r.message == invalid
    ensures r.Sent? <==> !r.Refused?
    ensures r.Sent? ==> r.value == NumberToJson(parse(text))
  {
    if toNumber(text).Finite? && toNumber(text).value < 0.0 then Refused(invalid)
    else Sent(NumberToJson(parse(text)))
  }

  /**
   * `_handleEditPrice` as written: past the guard it calls
   * `updateProductPrice`, which the product context never provides, so the
   * call throws, the catch swallows it, and no request leaves the page.
   */
  function EditPriceAsWritten(text: string, toNumber: string -> JsNumber): (r: Submit)
    ensures r.Refused? <==> toNumber(text).Finite? && toNumber(text).value < 0.0
    ensures r.Refused? ==> r.message == InvalidPrice
    ensures !r.Sent?
  {
    if toNumber(text).Finite? && toNumber(text).value < 0.0 then Refused(InvalidPrice) else Swallowed
  }

  /** A valid price typed as "5" is dropped by the editor as written, and sent by the intended one. */
  lemma PriceEditorDropsValidPrice(toNumber: string -> JsNumber, parseFloat: string -> JsNumber)
    requires toNumber("5") == Finite(5.0) && parseFloat("5") == Finite(5.0)
    ensures EditPriceAsWritten("5", toNumber) == Swallowed
    ensures EditRequest("5", InvalidPrice, toNumber, parseFloat) == Sent(Num(5.0))
  {
  }

  /**
   * The intended price editor: a text the client accepts and that parses to
   * a finite number reaches the price route, which then answers as for that
   * number. A negative parse is stopped on the client whenever `+text`
   * agrees with it, so the server sees only a non-negative price and never
   * answers 400 for it.
   */
  lemma EditPriceReachesRoute(s: InventoryState, id: int, text: string, toNumber: string -> JsNumber,
                              parseFloat: string -> JsNumber, x: real)
    requires parseFloat(text) == Finite(x) && toNumber(text) == Finite(x)
    ensures EditRequest(text, InvalidPrice, toNumber, parseFloat).Sent? <==> x >= 0.0
    ensures x >= 0.0 ==> EditRequest(text, InvalidPrice, toNumber, parseFloat) == Sent(Num(x))
    ensures x >= 0.0 ==> (UpdatePrice(s, id, Num(x)).reply.Ok? <==> IndexOfId(s.products, id) != -1)
    ensures x >= 0.0 && IndexOfId(s.products, id) != -1 ==>
      UpdatePrice(s, id, Num(x)).reply.value.price == x
  {
  }

  /**
   * An empty quantity passes the client's check, since `+""` is 0, but
   * `parseInt("")` is NaN, which travels as null: the server answers 400
   * and changes nothing.
   */
  lemma EmptyQuantityReachesServer(s: InventoryState, id: int, toNumber: string -> JsNumber, parseInt: string -> JsNumber)
    requires toNumber("") == Finite(0.0) && parseInt("") == NaN
    ensures EditRequest("", InvalidQuantity, toNumber, parseInt) == Sent(Null)
    ensures UpdateQuantity(s, id, Null) == Step(s, Err(BadRequest(QuantityNotPositive)))
  {
  }
}

=== FILE: http.dfy ===
/** The error replies the handlers and the middleware send. */
module Http {

  datatype HttpError =
    | BadRequest(message: string)
    | Unauthorized(message: string)
    | Forbidden(message: string)
    | NotFound(message: string)
  {
    /** The HTTP status code of the reply. */
    function Code(): nat {
      match this
      case BadRequest(_) => 400
      case Unauthorized(_) => 401
      case Forbidden(_) => 403
      case NotFound(_) => 404
    }
  }

  /** A handler's reply: a success body, or an error reply. */
  datatype Result<+T> = Ok(value: T) | Err(error: HttpError)
}

=== FILE: inventory.dfy ===
/**
 * The in-memory product store of the server, as values: the `products` list
 * and the `nextProductId` counter, the validation each product route runs,
 * and what each route handler leaves behind. The class in module Server
 * performs these steps in place and is proved against the functions here.
 */
module Inventory {
  import opened Values
  import opened Http
  import opened StockStatus

  datatype Product = Product(id: int, name: string, category: string, price: real, quantity: real, status: Status)

  /** The handlers' shared state. */
  datatype InventoryState = InventoryState(products: seq<Product>, nextProductId: int)

  /** The body of a create request. */
  datatype CreateBody = CreateBody(name: Option<string>, category: Option<string>, price: Json, quantity: Json)

  /** What a product handler leaves behind: the new state and its reply. */
  datatype Step = Step(after: InventoryState, reply: Result<Product>)

  const AllFieldsRequired := "All fields are required"
  const PriceNotPositive := "Price must be a positive number"
  const QuantityRequired := "Quantity is required"
  const QuantityNotPositive := "Quantity must be a positive number"
  // The price route reuses the quantity route's wording for a missing price.
  const PriceRequired := "Quantity is required"
  const PriceNotPositiveLower := "price must be a positive number"
  const ProductNotFound := "Product not found"

  // ---------------------------------------------------------------- invariant

  predicate StatusAgrees(p: Product) {
    p.status == CalculateStatus(p.quantity)
  }

  /** The create route refuses an empty name or category, so no stored product has one. */
  predicate WellFormed(p: Product) {
    p.name != "" && p.category != "" && StatusAgrees(p) && p.price >= 0.0 && p.quantity >= 0.0
  }

  /**
   * Every product is well formed, ids are pairwise distinct and the counter
   * is above every id.
   */
  predicate Invariant(s: InventoryState) {
    && (forall k :: 0 <= k < |s.products| ==> WellFormed(s.products[k]) && s.products[k].id < s.nextProductId)
    && (forall j, k :: 0 <= j < k < |s.products| ==> s.products[j].id != s.products[k].id)
  }

  /** The five products the server starts with, and the counter past them. */
  function Seed(): (s: InventoryState)
    ensures Invariant(s)
    ensures |s.products| == 5 && s.nextProductId == 6
  {
    InventoryState(
      [ Product(1, "Laptop", "Electronics", 999.0, 15.0, InStock),
        Product(2, "Mouse", "Electronics", 25.0, 8.0, LowStock),
        Product(3, "Keyboard", "Electronics", 75.0, 0.0, OutOfStock),
        Product(4, "Monitor", "Electronics", 299.0, 5.0, LowStock),
        Product(5, "Desk Chair", "Furniture", 199.0, 12.0, InStock) ],
      6)
  }

  // ---------------------------------------------------------------- lookup

  /**
   * `products.findIndex(p => p.id === id)`: the index of the first product
   * with that id, or -1 when there is none.
   */
  function IndexOfId(ps: seq<Product>, id: int): (i: int)
    ensures -1 <= i < |ps|
    ensures i == -1 <==> forall k :: 0 <= k < |ps| ==> ps[k].id != id
    ensures 0 <= i ==> ps[i].id == id && forall k :: 0 <= k < i ==> ps[k].id != id
  {
    if |ps| == 0 then -1
    else if ps[0].id == id then 0
    else
      var j := IndexOfId(ps[1..], id);
      if j == -1 then -1 else j + 1
  }

  /** Rewriting one product without touching its id moves no id lookup. */
  lemma IndexOfIdSameIds(ps: seq<Product>, k: nat, q: Product, id: int)
    requires k < |ps| && q.id == ps[k].id
    ensures IndexOfId(ps[k := q], id) == IndexOfId(ps, id)
  {
    var qs := ps[k := q];
    assert forall j :: 0 <= j < |ps| ==> qs[j].id == ps[j].id;
  }

  // ---------------------------------------------------------------- status

  /** `updateProductStatus`: recompute the status from the quantity, nothing else. */
  function StatusRecomputed(p: Product): (q: Product)
    ensures StatusAgrees(q)
    ensures q.(status := p.status) == p
  {
    p.(status := CalculateStatus(p.quantity))
  }

  /** Recomputing a status that already agrees changes nothing. */
  lemma StatusRecomputedIdle(p: Product)
    requires StatusAgrees(p)
    ensures StatusRecomputed(p) == p
  {
  }

  // ---------------------------------------------------------------- validation

  /** `!field` is false: present and not the empty string. */
  predicate Present(field: Option<string>) {
    field.Some? && field.value != ""
  }

  /** `typeof v === "number" && !(v < 0)`. */
  predicate NonNegativeNumber(v: Json) {
    v.Num? && !(v.n < 0.0)
  }

  /**
   * The create route's checks, in their order: a missing field first, then
   * the price, then the quantity.
   */
  function ValidateCreate(b: CreateBody): (e: Option<HttpError>)
    ensures e.None? <==> Present(b.name) && Present(b.category) && NonNegativeNumber(b.price) && NonNegativeNumber(b.quantity)
    ensures e == Some(BadRequest(AllFieldsRequired)) <==>
      !Present(b.name) || !Present(b.category) || b.price == Undefined || b.quantity == Undefined
    ensures e == Some(BadRequest(PriceNotPositive)) <==>
      Present(b.name) && Present(b.category) && b.price != Undefined && b.quantity != Undefined
      && !NonNegativeNumber(b.price)
    ensures e == Some(BadRequest(QuantityNotPositive)) <==>
      Present(b.name) && Present(b.category) && b.quantity != Undefined && NonNegativeNumber(b.price)
      && !NonNegativeNumber(b.quantity)
  {
    if !Present(b.name) || !Present(b.category) || b.price.Undefined? || b.quantity.Undefined? then
      Some(BadRequest(AllFieldsRequired))
    else if !NonNegativeNumber(b.price) then
      Some(BadRequest(PriceNotPositive))
    else if !NonNegativeNumber(b.quantity) then
      Some(BadRequest(QuantityNotPositive))
    else
      None
  }

  /** The quantity route's checks: missing, then not a non-negative number. */
  function ValidateQuantity(v: Json): (e: Option<HttpError>)
    ensures e.None? <==> NonNegativeNumber(v)
    ensures e == Some(BadRequest(QuantityRequired)) <==> v == Undefined
    ensures e == Some(BadRequest(QuantityNotPositive)) <==> v != Undefined && !NonNegativeNumber(v)
  {
    if v.Undefined? then Some(BadRequest(QuantityRequired))
    else if !NonNegativeNumber(v) then Some(BadRequest(QuantityNotPositive))
    else None
  }

  /** The price route's checks, with that route's own messages. */
  function ValidatePrice(v: Json): (e: Option<HttpError>)
    ensures e.None? <==> NonNegativeNumber(v)
    ensures e == Some(BadRequest(PriceRequired)) <==> v == Undefined
    ensures e == Some(BadRequest(PriceNotPositiveLower)) <==> v != Undefined && !NonNegativeNumber(v)
  {
    if v.Undefined? then Some(BadRequest(PriceRequired))
    else if !NonNegativeNumber(v) then Some(BadRequest(PriceNotPositiveLower))
    else None
  }

  // ---------------------------------------------------------------- handlers

  /**
   * POST /api/products: on failure nothing changes; on success one product
   * is appended, carrying the old counter as its id, and the counter moves
   * on by one.
   */
  function Create(s: InventoryState, b: CreateBody): (st: Step)
    ensures st.reply.Err? <==> ValidateCreate(b).Some?
    ensures st.reply.Err? ==> st.after == s && Some(st.reply.error) == ValidateCreate(b)
    ensures st.reply.Ok? ==>
      var p := st.reply.value;
      && st.after.products == s.products + [p]
      && st.after.nextProductId == s.nextProductId + 1
      && p.id == s.nextProductId
      && Some(p.name) == b.name && Some(p.category) == b.category
      && Num(p.price) == b.price && Num(p.quantity) == b.quantity
      && StatusAgrees(p)
  {
    match ValidateCreate(b)
    case Some(e) => Step(s, Err(e))
    case None =>
      var p := Product(s.nextProductId, b.name.value, b.category.value, b.price.n, b.quantity.n,
                       CalculateStatus(b.quantity.n));
      Step(InventoryState(s.products + [p], s.nextProductId + 1), Ok(p))
  }

  /**
   * PUT /api/products/:id: validation before lookup; on success only the
   * first product with that id changes, in its quantity and its status.
   */
  function UpdateQuantity(s: InventoryState, id: int, quantity: Json): (st: Step)
    ensures ValidateQuantity(quantity).Some? ==> st == Step(s, Err(ValidateQuantity(quantity).value))
    ensures ValidateQuantity(quantity).None? && IndexOfId(s.products, id) == -1 ==>
      st == Step(s, Err(NotFound(ProductNotFound)))
    ensures st.reply.Ok? <==> ValidateQuantity(quantity).None? && IndexOfId(s.products, id) != -1
    ensures st.reply.Ok? ==>
      var i := IndexOfId(s.products, id);
      var p := st.reply.value;
      && st.after.nextProductId == s.nextProductId
      && st.after.products == s.products[i := p]
      && p == s.products[i].(quantity := quantity.n, status := CalculateStatus(quantity.n))
  {
    match ValidateQuantity(quantity)
    case Some(e) => Step(s, Err(e))
    case None =>
      var i := IndexOfId(s.products, id);
      if i == -1 then Step(s, Err(NotFound(ProductNotFound)))
      else
        var p := StatusRecomputed(s.products[i].(quantity := quantity.n));
        Step(s.(products := s.products[i := p]), Ok(p))
  }

  /**
   * PUT /api/products-price/:id: validation before lookup; on success the
   * first product with that id gets the new price and a recomputed status.
   */
  function UpdatePrice(s: InventoryState, id: int, price: Json): (st: Step)
    ensures ValidatePrice(price).Some? ==> st == Step(s, Err(ValidatePrice(price).value))
    ensures ValidatePrice(price).None? && IndexOfId(s.products, id) == -1 ==>
      st == Step(s, Err(NotFound(ProductNotFound)))
    ensures st.reply.Ok? <==> ValidatePrice(price).None? && IndexOfId(s.products, id) != -1
    ensures st.reply.Ok? ==>
      var i := IndexOfId(s.products, id);
      var p := st.reply.value;
      && st.after.nextProductId == s.nextProductId
      && st.after.products == s.products[i := p]
      && p.(status := s.products[i].status) == s.products[i].(price := price.n)
      && StatusAgrees(p)
  {
    match ValidatePrice(price)
    case Some(e) => Step(s, Err(e))
    case None =>
      var i := IndexOfId(s.products, id);
      if i == -1 then Step(s, Err(NotFound(ProductNotFound)))
      else
        var p := StatusRecomputed(s.products[i].(price := price.n));
        Step(s.(products := s.products[i := p]), Ok(p))
  }

  /**
   * DELETE /api/products/:id: the first product with that id is cut out and
   * returned; the others keep their order; the counter is not rolled back.
   */
  function Delete(s: InventoryState, id: int): (st: Step)
    ensures st.reply.Err? <==> IndexOfId(s.products, id) == -1
    ensures st.reply.Err? ==> st == Step(s, Err(NotFound(ProductNotFound)))
    ensures st.reply.Ok? ==>
      var i := IndexOfId(s.products, id);
      && st.reply.value == s.products[i]
      && st.after.products == s.products[..i] + s.products[i + 1..]
      && |st.after.products| == |s.products| - 1
      && st.after.nextProductId == s.nextProductId
  {
    var i := IndexOfId(s.products, id);
    if i == -1 then Step(s, Err(NotFound(ProductNotFound)))
    else
      assert |s.products[..i] + s.products[i + 1..]| == |s.products| - 1;
      Step(s.(products := s.products[..i] + s.products[i + 1..]), Ok(s.products[i]))
  }

  // ---------------------------------------------------------------- invariant preservation

  lemma CreatePreservesInvariant(s: InventoryState, b: CreateBody)
    requires Invariant(s)
    ensures Invariant(Create(s, b).after)
  {
  }

  lemma UpdateQuantityPreservesInvariant(s: InventoryState, id: int, quantity: Json)
    requires Invariant(s)
    ensures Invariant(UpdateQuantity(s, id, quantity).after)
  {
  }

  lemma UpdatePricePreservesInvariant(s: InventoryState, id: int, price: Json)
    requires Invariant(s)
    ensures Invariant(UpdatePrice(s, id, price).after)
  {
  }

  lemma DeletePreservesInvariant(s: InventoryState, id: int)
    requires Invariant(s)
    ensures Invariant(Delete(s, id).after)
  {
  }

  // ---------------------------------------------------------------- properties across calls

  /** In a consistent store a price update changes the price and nothing else. */
  lemma UpdatePriceOnlyChangesPrice(s: InventoryState, id: int, price: Json)
    requires Invariant(s)
    requires UpdatePrice(s, id, price).reply.Ok?
    ensures
      var i := IndexOfId(s.products, id);
      UpdatePrice(s, id, price).after == s.(products := s.products[i := s.products[i].(price := price.n)])
  {
  }

  /** Applying the same price twice leaves what applying it once leaves, with the same reply. */
  lemma UpdatePriceIdempotent(s: InventoryState, id: int, price: Json)
    ensures UpdatePrice(UpdatePrice(s, id, price).after, id, price) == UpdatePrice(s, id, price)
  {
    var first := UpdatePrice(s, id, price);
    if first.reply.Ok? {
      var i := IndexOfId(s.products, id);
      IndexOfIdSameIds(s.products, i, first.reply.value, id);
    }
  }

  /** Once deleted from a consistent store, an id is found no more. */
  lemma DeleteRemovesId(s: InventoryState, id: int)
    requires Invariant(s)
    requires Delete(s, id).reply.Ok?
    ensures IndexOfId(Delete(s, id).after.products, id) == -1
  {
  }

  /** After a delete, every later request on that id is refused: 404, or 400 from validation. */
  lemma DeletedIdIsGone(s: InventoryState, id: int, quantity: Json, price: Json)
    requires Invariant(s)
    requires Delete(s, id).reply.Ok?
    ensures var t := Delete(s, id).after;
      && Delete(t, id) == Step(t, Err(NotFound(ProductNotFound)))
      && UpdateQuantity(t, id, quantity).reply.Err?
      && UpdatePrice(t, id, price).reply.Err?
      && UpdateQuantity(t, id, quantity).after == t
      && UpdatePrice(t, id, price).after == t
  {
  }

  /** The counter is not rolled back: a product created after a delete never takes the deleted id. */
  lemma DeletedIdNeverReused(s: InventoryState, id: int, b: CreateBody)
    requires Invariant(s)
    requires Delete(s, id).reply.Ok?
    ensures IndexOfId(Create(Delete(s, id).after, b).after.products, id) == -1
  {
  }

  /**
   * A product just created can be found under its new id; setting its
   * quantity to zero makes it out of stock and leaves everything else on it
   * as it was.
   */
  lemma CreateThenEmpty(s: InventoryState, b: CreateBody)
    requires Invariant(s)
    requires Create(s, b).reply.Ok?
    ensures
      var p := Create(s, b).reply.value;
      UpdateQuantity(Create(s, b).after, p.id, Num(0.0)).reply == Ok(p.(quantity := 0.0, status := OutOfStock))
  {
    var p := Create(s, b).reply.value;
    var ps := Create(s, b).after.products;
    assert ps[|s.products|] == p;
    assert IndexOfId(ps, p.id) == |s.products| by {
      assert forall k :: 0 <= k < |s.products| ==> ps[k].id != p.id by {
        assert forall k :: 0 <= k < |s.products| ==> ps[k] == s.products[k];
      }
    }
  }
}

=== FILE: server.dfy ===
/**
 * The server's product store as the handlers run it: one object whose
 * `products` list and `nextProductId` counter the routes update in place,
 * and the routes themselves, each behind its gates.
 */
module Server {
  import opened Values
  import opened Http
  import opened StockStatus
  import opened Inventory
  import opened Auth

  class ProductStore {
    var products: seq<Product>
    var nextProductId: int

    /** The store's contents as a value. */
    function State(): InventoryState
      reads this
    {
      InventoryState(products, nextProductId)
    }

    ghost predicate Valid()
      reads this
    {
      Invariant(State())
    }

    /** The seed products and the counter past them. */
    constructor ()
      ensures State() == Seed()
      ensures Valid()
    {
      products := Seed().products;
      nextProductId := Seed().nextProductId;
    }

    /** `updateProductStatus(products[i])`: only that product's status changes. */
    method UpdateProductStatus(i: nat)
      requires i < |products|
      modifies this
      ensures products == old(products)[i := StatusRecomputed(old(products)[i])]
      ensures nextProductId == old(nextProductId)
    {
      products := products[i := products[i].(status := CalculateStatus(products[i].quantity))];
    }

    /** The create handler: validate, take the next id, append. */
    method Create(body: CreateBody) returns (r: Result<Product>)
      requires Valid()
      modifies this
      ensures Valid()
      ensures Step(State(), r) == Inventory.Create(old(State()), body)
    {
      var e := ValidateCreate(body);
      if e.Some? {
        return Err(e.value);
      }
      var p := Product(nextProductId, body.name.value, body.category.value, body.price.n, body.quantity.n,
                       CalculateStatus(body.quantity.n));
      nextProductId := nextProductId + 1;
      products := products + [p];
      r := Ok(p);
      CreatePreservesInvariant(old(State()), body);
    }

    /** The quantity handler: validate, find, write the quantity, recompute the status. */
    method UpdateQuantity(id: int, quantity: Json) returns (r: Result<Product>)
      requires Valid()
      modifies this
      ensures Valid()
      ensures Step(State(), r) == Inventory.UpdateQuantity(old(State()), id, quantity)
    {
      var e := ValidateQuantity(quantity);
      if e.Some? {
        return Err(e.value);
      }
      var i := IndexOfId(products, id);
      if i == -1 {
        return Err(NotFound(ProductNotFound));
      }
      products := products[i := products[i].(quantity := quantity.n)];
      UpdateProductStatus(i);
      r := Ok(products[i]);
      UpdateQuantityPreservesInvariant(old(State()), id, quantity);
    }

    /** The price handler: validate, find, write the price, recompute the status. */
    method UpdatePrice(id: int, price: Json) returns (r: Result<Product>)
      requires Valid()
      modifies this
      ensures Valid()
      ensures Step(State(), r) == Inventory.UpdatePrice(old(State()), id, price)
    {
      var e := ValidatePrice(price);
      if e.Some? {
        return Err(e.value);
      }
      var i := IndexOfId(products, id);
      if i == -1 {
        return Err(NotFound(ProductNotFound));
      }
      products := products[i := products[i].(price := price.n)];
      UpdateProductStatus(i);
      r := Ok(products[i]);
      UpdatePricePreservesInvariant(old(State()), id, price);
    }

    /** The delete handler: find the index, splice that product out, return it. */
    method Delete(id: int) returns (r: Result<Product>)
      requires Valid()
      modifies this
      ensures Valid()
      ensures Step(State(), r) == Inventory.Delete(old(State()), id)
    {
      var i := IndexOfId(products, id);
      if i == -1 {
        return Err(NotFound(ProductNotFound));
      }
      var removed := products[i];
      products := products[..i] + products[i + 1..];
      r := Ok(removed);
      DeletePreservesInvariant(old(State()), id);
    }
  }

  /** GET /api/products: any verified token sees the whole list, in store order. */
  method GetProducts(store: ProductStore, authorization: Option<string>, verify: string -> Option<Identity>)
    returns (r: Result<seq<Product>>)
    ensures r.Ok? <==> Authenticate(authorization, verify).Ok?
    ensures r.Ok? ==> r.value == store.products
    ensures r.Err? ==> r.error == Authenticate(authorization, verify).error
  {
    var user := Authenticate(authorization, verify);
    if user.Err? {
      return Err(user.error);
    }
    r := Ok(store.products);
  }

  /** POST /api/products, behind both gates. */
  method PostProduct(store: ProductStore, authorization: Option<string>, verify: string -> Option<Identity>,
                     body: CreateBody) returns (r: Result<Product>)
    requires store.Valid()
    modifies store
    ensures store.Valid()
    ensures AdminGate(authorization, verify).Err? ==>
      r == Err(AdminGate(authorization, verify).error) && store.State() == old(store.State())
    ensures AdminGate(authorization, verify).Ok? ==> Step(store.State(), r) == Inventory.Create(old(store.State()), body)
  {
    var gate := AdminGate(authorization, verify);
    if gate.Err? {
      return Err(gate.error);
    }
    r := store.Create(body);
  }

  /** PUT /api/products/:id, behind both gates. */
  method PutQuantity(store: ProductStore, authorization: Option<string>, verify: string -> Option<Identity>,
                     id: int, quantity: Json) returns (r: Result<Product>)
    requires store.Valid()
    modifies store
    ensures store.Valid()
    ensures AdminGate(authorization, verify).Err? ==>
      r == Err(AdminGate(authorization, verify).error) && store.State() == old(store.State())
    ensures AdminGate(authorization, verify).Ok? ==>
      Step(store.State(), r) == Inventory.UpdateQuantity(old(store.State()), id, quantity)
  {
    var gate := AdminGate(authorization, verify);
    if gate.Err? {
      return Err(gate.error);
    }
    r := store.UpdateQuantity(id, quantity);
  }

  /** PUT /api/products-price/:id, behind both gates. */
  method PutPrice(store: ProductStore, authorization: Option<string>, verify: string -> Option<Identity>,
                  id: int, price: Json) returns (r: Result<Product>)
    requires store.Valid()
    modifies store
    ensures store.Valid()
    ensures AdminGate(authorization, verify).Err? ==>
      r == Err(AdminGate(authorization, verify).error) && store.State() == old(store.State())
    ensures AdminGate(authorization, verify).Ok? ==>
      Step(store.State(), r) == Inventory.UpdatePrice(old(store.State()), id, price)
  {
    var gate := AdminGate(authorization, verify);
    if gate.Err? {
      return Err(gate.error);
    }
    r := store.UpdatePrice(id, price);
  }

  /** DELETE /api/products/:id, behind both gates. */
  method DeleteProduct(store: ProductStore, authorization: Option<string>, verify: string -> Option<Identity>,
                       id: int) returns (r: Result<Product>)
    requires store.Valid()
    modifies store
    ensures store.Valid()
    ensures AdminGate(authorization, verify).Err? ==>
      r == Err(AdminGate(authorization, verify).error) && store.State() == old(store.State())
    ensures AdminGate(authorization, verify).Ok? ==> Step(store.State(), r) == Inventory.Delete(old(store.State()), id)
  {
    var gate := AdminGate(authorization, verify);
    if gate.Err? {
      return Err(gate.error);
    }
    r := store.Delete(id);
  }
}

=== FILE: stock_status.dfy ===
/** The stock-status classifier (`calculateStatus`). */
module StockStatus {

  datatype Status = InStock | LowStock | OutOfStock {
    /** The string the server sends for this status. */
    function Name(): string {
      match this
      case InStock => "in-stock"
      case LowStock => "low-stock"
      case OutOfStock => "out-of-stock"
    }
  }

  /** More than ten on hand is in stock, above zero up to ten is low, zero or less is out. */
  function CalculateStatus(quantity: real): (s: Status)
    ensures s == InStock <==> quantity > 10.0
    ensures s == LowStock <==> 0.0 < quantity <= 10.0
    ensures s == OutOfStock <==> quantity <= 0.0
  {
    if quantity > 10.0 then InStock
    else if quantity > 0.0 && quantity <= 10.0 then LowStock
    else OutOfStock
  }

  /** A status's position on the scale out < low < in. */
  function Level(s: Status): nat {
    match s
    case OutOfStock => 0
    case LowStock => 1
    case InStock => 2
  }

  /** More stock never gives a worse status. */
  lemma CalculateStatusMonotone(q1: real, q2: real)
    requires q1 <= q2
    ensures Level(CalculateStatus(q1)) <= Level(CalculateStatus(q2))
  {
  }

  /** The three status strings are distinct, so the string identifies the status. */
  lemma NameInjective(s: Status, t: Status)
    ensures s.Name() == t.Name() <==> s == t
  {
  }
}

=== FILE: values.dfy ===
/** JavaScript values as the server and the client see them. */
module Values {

  datatype Option<+T> = None | Some(value: T)

  /** A JavaScript number: either NaN or a finite value. */
  datatype JsNumber = NaN | Finite(value: real)

  /**
   * A field of a JSON request body as Express's body parser hands it to a
   * handler. `Undefined` is a key the body does not have; `Composite` stands
   * for an array or an object.
   */
  datatype Json = Undefined | Null | Bool(b: bool) | Num(n: real) | Str(s: string) | Composite

  /** JavaScript truthiness: `!v` is false exactly when `Truthy(v)`. */
  predicate Truthy(v: Json) {
    match v
    case Undefined => false
    case Null => false
    case Bool(b) => b
    case Num(n) => n != 0.0
    case Str(s) => s != ""
    case Composite => true
  }

  /** `JSON.stringify` of a number: NaN travels as `null`. */
  function NumberToJson(x: JsNumber): (v: Json)
    ensures v.Num? <==> x.Finite?
    ensures x.Finite? ==> v.n == x.value
    ensures x.NaN? ==> v == Null
  {
    match x
    case NaN => Null
    case Finite(r) => Num(r)
  }
}
